=== FILE: README.md ===
# Credential-custody proxy: a Dafny model

This project models the core of a small Node/Express proxy that keeps a user's
chat-API key out of the browser. The browser submits the key once to
`POST /api/setup`. The server encrypts it with AES-256-CBC under a process-wide
key, stores it in an in-memory session, and hands back only an HTTP-only session
cookie. `POST /api/chat` then looks the session up, decrypts the key, forwards
the conversation upstream with the key as a bearer token, and returns only the
reply. `POST /api/logout` deletes the session and clears the cookie.

The model has three parts:

- **Session store** (`sessions.dfy`, module `Sessions`). The store is an immutable
  `map<SessionId, Record<D>>` plus its configured maximum idle age. Create, lookup,
  delete, sweep and stats are pure transitions. The clock value `now` and the 32
  random bytes of a new ID are parameters. Expiry is strict: a record idle for
  exactly the maximum age is still live.
- **Cipher framing** (`encryption.dfy`, module `Encryption`). This part covers
  loading the `ENCRYPTION_KEY` setting, the `hex(iv) + ":" + hexCiphertext` record,
  how `decrypt` splits and decodes that record, and the single generic error for
  every failure. AES-256-CBC is a parameter `aes: Aes` holding two functions. The
  one property assumed of it is `Inverse(aes)`: decryption under the same key and
  IV gives the plaintext back.
- **Handlers** (`server.dfy`, module `Server`). Setup, chat and logout are pure
  functions. Each takes the environment, the request body as a JSON value, the
  cookie, the store and the abstract collaborators. Each returns an `Outcome`: the
  status, body and cookie update, the new store, and the upstream request it sent,
  if any. URL parsing (`urlOk`) and the upstream call (`call`) are function
  parameters.

Supporting modules model the JavaScript and Node behaviour the core relies on:

- `hex.dfy`: `Buffer` hex. Encoding is lower case. Decoding is lenient: it stops
  at the first pair that is not two hex digits.
- `text.dfy`: `split`/`join`, decimal rendering, and `parseInt` with no radix.
  `parseInt` skips leading white space, accepts a sign and a `0x` prefix, and stops
  at the first character that is not a digit.
- `json.dfy`: JSON values, JavaScript truthiness, property reads and optional
  chaining.
- `results.dfy`: `Option` and `Result`.

Two properties are stated as non-interference. "Validation happens before any
crypto or upstream call" means a 400 or 401 outcome is identical for every key,
cipher and upstream. "The decrypted key never reaches a response" means the
following. Take an upstream whose answer does not depend on the bearer token. Then
two servers whose stored keys decrypt to different plaintexts give identical
responses.

Behaviour of the code worth knowing:

- A decrypted record's IV piece is decoded as leniently as `Buffer.from(_, 'hex')`
  does. Text after 32 valid hex digits that stops decoding is ignored, so such a
  record still decrypts. A stricter decoder would refuse it.
  `Encryption.IvTrailingTextIgnored` states the behaviour of the code.
- A missing or malformed `ENCRYPTION_KEY` is not detected at startup. It is found
  on each `encrypt`/`decrypt` call, and each call then fails with the generic
  error: setup answers 500 and chat answers 500. The code checks only presence and
  length (64). A 64-character key with a non-hex character passes that check, then
  decodes to fewer than 32 bytes and is refused by the cipher.
  `Encryption.GetEncryptionKey` and `Encryption.Encrypt` state both steps.
- All crypto failures share one message. No "wrong key" error is distinct from a
  malformed-record error.
- Server-side expiry slides on every successful lookup. The cookie, however, is set
  only by setup, with a fixed `maxAge`, so a client stops presenting it once that
  time has passed, however active the session is.
- `parseInt` accepts a negative `SESSION_MAX_AGE`. That value then expires every
  session at its first lookup. Only zero and unparsable values fall back to 24
  hours. `Sessions.MaxAgeSettingNegative` states this.

## Model

| member | source | states |
|---|---|---|
| Sessions.MaxAgeSetting | server/utils/sessions.js:15 | The maximum age is never zero. An unset or unparsable setting gives the 24-hour default. A parsed non-zero value is used as is, and a parsed zero gives the default. A negative maximum age comes only from a setting whose first non-blank character is '-'. |
| Sessions.MaxAgeSettingReadsDecimal | server/utils/sessions.js:15 | A positive decimal setting is used as is. Zero falls back to 24 hours. |
| Sessions.MaxAgeSettingNegative | server/utils/sessions.js:15 | A setting "-n" with n > 0 gives the negative maximum age -n. It does not fall back to the default. |
| Sessions.NewStore | server/utils/sessions.js:12-15 | The store starts empty, with the configured maximum age. |
| Sessions.GenerateSessionId | server/utils/sessions.js:22-24 | A session ID is 64 lower-case hex characters and is never empty. |
| Sessions.GenerateSessionIdInjective | server/utils/sessions.js:22-24 | Distinct random bytes give distinct IDs, so ID freshness reduces to the random source. |
| Sessions.CreateSession | server/utils/sessions.js:34-46 | Returns the generated ID. The ID maps to the given data with createdAt = lastUsedAt = now. Every other entry is unchanged. A fresh ID grows the store by one. |
| Sessions.GetSession | server/utils/sessions.js:53-73 | Hits exactly when the ID is non-empty, present and idle for at most the maximum age. An empty or unknown ID leaves the store unchanged. An expired record is evicted. A hit changes only that record's lastUsedAt, to now, and returns the refreshed record. |
| Sessions.DeleteSession | server/utils/sessions.js:80-86 | Returns true iff the ID was present. The ID is absent afterwards. Other records are untouched. |
| Sessions.GetStats | server/utils/sessions.js:112-118 | totalSessions is the number of records. The two intervals are the configured ones. |
| Sessions.Sweep | server/utils/sessions.js:92-106 | Keeps exactly the records not expired at now, each unchanged. |
| Sessions.CleanupExpiredSessions | server/utils/sessions.js:92-106 | The deleting loop over all entries leaves exactly the Sweep result. Its count equals the number of records removed. |
| Sessions.ExpiryBoundary | server/utils/sessions.js:61-66 | Idle for exactly the maximum age: the lookup still hits. One millisecond more: the lookup misses and evicts. |
| Sessions.HitThenHit | server/utils/sessions.js:62-72 | After a hit at t, a lookup at any t' <= t + maxAge hits. |
| Sessions.SlidingExpiry | server/utils/sessions.js:62-72 | Any run of lookups whose gaps never exceed the maximum age hits every time, however long the run. |
| Sessions.IdleExpires | server/utils/sessions.js:61-66 | After a hit at t, a lookup later than t + maxAge misses and removes the record. |
| Sessions.CreateThenGet | server/utils/sessions.js:34-72 | A new session answers any lookup made within the maximum age after its creation. It returns its data, its creation time and a last-use time refreshed to the lookup time. |
| Sessions.DeleteTwice | server/utils/sessions.js:80-86 | A second delete returns false and changes nothing. |
| Sessions.SweepAgreesWithLazyExpiry | server/utils/sessions.js:92-106 | A lookup at the sweep's instant or any later time answers as it would without the sweep. |
| Sessions.SweepIdempotent | server/utils/sessions.js:92-106 | A second sweep at the same instant removes nothing. |
| Sessions.SweepAllIdle | server/utils/sessions.js:92-106 | When every record is idle past the maximum age, the sweep empties the store. |
| Sessions.StatsTrackCreateAndDelete | server/utils/sessions.js:112-118 | The count rises by one per create of a fresh ID and falls by one per delete of a present ID. |
| Hex.Encode | server/utils/encryption.js:47 | Writes two lower-case hex digits per byte. |
| Hex.DecodeEncodeThen | server/utils/encryption.js:68 | Lenient decoding reads back an encoding, whatever non-hex text follows it. |
| Hex.DecodeEncode | server/utils/encryption.js:47 | The hex codec round-trips. |
| Hex.DecodeReadsPairs | server/utils/encryption.js:29 | Buffer.from(_, 'hex') builds byte i from the two hex digits at positions 2i and 2i+1, high digit first. |
| Hex.DecodeStopsAtNonPair | server/utils/encryption.js:68 | Decoding stops exactly where the text no longer starts with two hex digits. An odd last character and everything after the first bad pair are dropped. |
| Hex.DecodeFullLength | server/utils/encryption.js:29 | An even-length text decodes to its full byte count iff it is all hex digits. |
| Hex.DecodeAllHex | server/utils/encryption.js:29 | A 64-digit key decodes to 32 bytes, each read from its own digit pair. |
| Text.Split | server/utils/encryption.js:62 | There is one more piece than there are separators, and no piece contains the separator. |
| Text.SplitJoin | server/utils/encryption.js:47-62 | Splitting a join of separator-free pieces gives the pieces back. |
| Text.JoinSplit | server/utils/encryption.js:62 | Joining a split gives the text back. |
| Text.ParseInt | server/utils/sessions.js:15 | Text that is blank after skipping leading white space gives NaN. A negative result needs a '-' as the first non-blank character. |
| Text.ParseUnsigned | server/utils/sessions.js:15 | A number needs a leading decimal digit after the sign. A leading digit not followed by x or X always gives a number. |
| Text.ParseIntSkipsWhitespace | server/utils/sessions.js:15 | A leading white-space character does not change what parseInt returns. |
| Text.ParseIntHexPrefix | server/utils/sessions.js:15 | "0x" or "0X" followed by a run of hex digits reads the whole run in base 16, up to the first character that is not a hex digit. |
| Text.ParseIntBareHexPrefix | server/utils/sessions.js:15 | "0x" or "0X" with no hex digit after it, whatever follows, gives NaN, not 0. |
| Text.ParseIntOfPositiveDecimal | server/utils/sessions.js:15 | A leading '+' is accepted: "+" followed by a rendered number gives that number. |
| Text.ParseIntOfDecimal | server/utils/sessions.js:15 | parseInt reads back a rendered number, up to the first character that cannot continue it. |
| Text.ParseIntOfNegativeDecimal | server/server.js:102 | parseInt of "-" followed by a rendered number gives its negation. |
| Encryption.GetEncryptionKey | server/utils/encryption.js:18-30 | Fails as "not set" iff the setting is absent or empty. Fails as "wrong length" iff its length is not 64. Otherwise yields at most 32 bytes: exactly 32 iff the setting is all hex. For a usable setting, byte i is the value of hex digits 2i and 2i+1. |
| Encryption.Encrypt | server/utils/encryption.js:37-52 | Succeeds iff the key setting is usable. The output has exactly one ':', at index 32. Its first piece is hex(iv) and its second is the cipher's output under the decoded key and that IV. The only error is "Failed to encrypt data". |
| Encryption.Decrypt | server/utils/encryption.js:59-80 | Succeeds iff the key is usable, splitting on ':' gives exactly two pieces, the IV piece decodes to 16 bytes and the cipher accepts the second piece under that key and IV. On success the result is the cipher's plaintext. Any text without exactly one ':' fails. The only error is "Failed to decrypt data". |
| Encryption.EncryptDecrypt | server/utils/encryption.js:37-80 | Round trip: with a usable key and a self-inverting cipher, decrypt(encrypt(t)) = t for every t and IV. |
| Encryption.DistinctIvsDistinctRecords | server/utils/encryption.js:40-47 | The same plaintext under different IVs gives different records. |
| Encryption.UnusableKeyRefusesAll | server/utils/encryption.js:18-80 | An unusable key makes both directions fail with their generic messages. |
| Encryption.IvTrailingTextIgnored | server/utils/encryption.js:68-71 | Non-hex text after a valid 32-digit IV does not change what decrypt returns. |
| Json.ArrayIndexOfDecimal | server/server.js:191 | Every rendered number, "0" included, is an array index naming that number. |
| Json.GetIndex | server/server.js:191 | Reading index i of an array gives element i when i is in range, and undefined past the end. |
| Json.GetCharIndex | server/server.js:191 | Reading index i of a string gives its i-th character as a string when i is in range, and undefined past the end. |
| Server.SessionCookie | server/server.js:98-104 | The cookie is HTTP-only, SameSite=lax and path /. It is secure iff NODE_ENV is production. Its maxAge follows the store's expiry rule. |
| Server.EncryptApiKey | server/server.js:88 | Encryption succeeds iff the key is a string and the key setting is usable. Otherwise the error is the generic one. |
| Server.Setup | server/server.js:66-119 | Missing fields give 400. A bad chat URL, or a bad truthy completion URL, gives 400, and a 400 means one of those two checks failed. An encryption failure after both checks gives 500, and no failure touches the store or the cookie. Success stores one session with the encrypted key, the chat endpoint and the completion endpoint, or null when it is falsy. It sets the cookie to the new ID and answers a fixed success body. |
| Server.UpstreamMessages | server/server.js:159-162 | The list is the prior turns (history if it is an array, else none) followed by exactly one user turn with the message. |
| Server.ExtractReply | server/server.js:191 | The reply is truthy, or it is ''. |
| Server.Relay | server/server.js:158-205 | Sends the chat endpoint, "Bearer " + key, the fixed model and the message list. A non-ok status whose body was read gives 502, with a message naming that status and status text. An unreachable upstream, a body whose read fails (at any status), or a body that is null or not JSON gives 500. Otherwise the answer is a 200 reply body holding the extracted reply, the answer's model or "codestral-latest", and the answer's usage or null. |
| Server.Chat | server/server.js:126-207 | No cookie gives 401. A lookup miss gives 401. An invalid message gives 400 after the refresh. The status is 401 exactly in the first two cases. A live session with a valid message gives 500 when the stored key does not decrypt. Otherwise the outcome is Relay with the decrypted key, the message and the history. Nothing is sent upstream on 400 or 401, and the cookie is never changed. |
| Server.Logout | server/server.js:213-237 | Always answers 200 with the success body and clears the cookie. Deletes exactly the cookie's session when one is given. |
| Server.SetupValidatesBeforeEncrypting | server/server.js:71-88 | A 400 outcome and the unchanged store are the same for every key, cipher, IV, random bytes and clock. |
| Server.SetupStoresRecoverableKey | server/server.js:88-95 | The stored record decrypts to the submitted key. |
| Server.CookieLifetimeMatchesStore | server/server.js:98-104 | The cookie's maxAge equals the store's maximum age. The new session's first lookup hits iff no more than that has passed. |
| Server.FirstSetupOnNewStore | server/utils/sessions.js:12-15 | On a store fresh from the environment, the first successful setup leaves exactly the new session. Its cookie's maxAge equals the store's maximum age, and the session's first lookup hits iff no more than that has passed. |
| Server.ChatChecksBeforeCrypto | server/server.js:129-156 | A 400 or 401 outcome sends nothing upstream and is the same for every key, cipher and upstream. |
| Server.ChatForwardsRequest | server/server.js:155-177 | Whatever is sent upstream carries the session's endpoint, "Bearer " + the decrypted key, the fixed model and the built message list. |
| Server.ChatHidesKey | server/server.js:155-199 | Take an upstream that ignores the bearer token, and two servers under which the cookie's stored key decrypts. Different decrypted keys then give identical responses and stores. |
| Server.UpstreamFailureReportsStatus | server/server.js:180-187 | A 502 carries the upstream status, and parseInt of the text after the prefix reads it back. |
| Server.ReplyExtraction | server/server.js:189-191 | The reply is choices[0].message.content when it is truthy and '' otherwise, whatever other fields the answer, the first choice and its message carry. Missing choices, empty choices, or a first choice without message give ''. |
| Server.SetupThenChat | server/server.js:66-177 | With valid fields, a usable key and a self-inverting cipher, setup succeeds. A later chat with the issued cookie within the maximum age sends exactly the submitted key upstream as the bearer token. |
| Server.ReplyDefaults | server/server.js:195-199 | A successful answer is relayed as a 200 with the extracted reply. A missing model becomes "codestral-latest" and missing usage becomes null. Truthy ones pass through. |
| Server.LogoutTwice | server/server.js:213-230 | A second logout answers the same and changes nothing. |
| Server.LogoutEndsSession | server/server.js:215-219 | After logout, the same cookie gets 401 from chat. |

## Left out

- `GET /api/health`: the process uptime is a clock read and is left out. Its store statistics are `Sessions.GetStats`.
- Logging: no `console` output is modelled. The source logs session IDs and library error messages verbatim. Whether those messages can contain the key is not modelled.
- Scheduling: the hourly `setInterval` of the sweep is not modelled. The sweep is an operation that takes `now`.
- Foreign calls: AES-256-CBC and `crypto.randomBytes` are parameters. Their freshness is an assumption about the caller, not something proved.
- Upstream I/O: `fetch`, the reading of its body and the parsing of that body are the `call` parameter. Its result says which of these steps failed.
- URL parsing: `new URL(...)` validity is the `urlOk` parameter.
- Framework plumbing: Express routing, CORS, `express.json()` body-parse errors, and the 404 and global error handlers are not modelled.
- Cookie parsing: `cookie-parser`'s `j:` JSON cookies are not modelled. The cookie is a plain optional string. A non-string cookie would miss the store in the same way an unknown ID does.
- Cookie encoding: Express's conversion of `maxAge` to `Max-Age`/`Expires` is not modelled.
- Server.Setup: a `SESSION_MAX_AGE` outside the range of a JavaScript date is not modelled. That means a magnitude above about 8.64e15 ms, or enough digits that `parseInt` gives Infinity. For such a value the expiry date Express builds at server.js:98-104 is invalid and `res.cookie` throws. By then `createSession` has already stored the session, so the source answers 500, keeps a live session and sets no cookie. With Infinity that store never expires anything. The model answers success in this case.
- The 500 branch of logout: it cannot be reached, because nothing in the handler throws.
- Text representation: strings are sequences of Unicode scalar values. JavaScript's UTF-16 lengths and lone surrogates are not represented. For example, a key whose UTF-16 length is 64 but whose scalar length is not is still refused, only at a different step.
- Numbers: `parseInt` is exact on unbounded integers. JavaScript loses precision above 2^53. JSON numbers are reals.
- `js/script.js`: this is the browser UI (DOM, `fetch`, HTML escaping) and is not part of this model.
- Concurrency: Node runs each handler to completion between awaits, and the store is touched only before the upstream call. Each handler is therefore one atomic transition.
- Server.ChatHidesKey: states non-leakage relative to the upstream. A reply in which the upstream itself echoes the key is outside what the proxy controls.

=== FILE: encryption.dfy ===
/** The credential cipher of `server/utils/encryption.js`: key loading from the
    environment, the `hex(iv):hexCiphertext` framing and the error discipline
    around AES-256-CBC. The block cipher itself is a parameter. */
module Encryption {
  import opened Results
  import opened Hex
  import Text

  const IV_LENGTH: nat := 16
  const KEY_LENGTH: nat := 32
  const KEY_HEX_LENGTH: nat := 64
  const SEPARATOR: char := ':'
  const ENCRYPT_FAILED := "Failed to encrypt data"
  const DECRYPT_FAILED := "Failed to decrypt data"

  /** A key the cipher accepts: `createCipheriv` refuses any other length. */
  type Key = k: seq<Byte> | |k| == KEY_LENGTH witness seq(32, _ => 0)

  /** An initialisation vector the cipher accepts; `crypto.randomBytes(16)` always yields one. */
  type Iv = v: seq<Byte> | |v| == IV_LENGTH witness seq(16, _ => 0)

  /** Cipher output in Node's `'hex'` output encoding. */
  type LowerHexText = s: string | IsLowerHex(s) witness ""

  /** AES-256-CBC as an abstract pair: `encrypt` is `update(text,'utf8','hex') +
      final('hex')` and `decrypt` is `update(hex,'hex','utf8') + final('utf8')`,
      `None` when the library throws (bad hex, bad padding). */
  datatype Aes = Aes(
    encrypt: (Key, Iv, string) -> LowerHexText,
    decrypt: (Key, Iv, string) -> Option<string>)

  /** The one property assumed of the block cipher: decryption under the same
      key and IV inverts encryption. */
  ghost predicate Inverse(aes: Aes) {
    forall k: Key, iv: Iv, t: string :: aes.decrypt(k, iv, aes.encrypt(k, iv, t)) == Some(t)
  }

  datatype KeyError = KeyNotSet | KeyWrongLength

  /** The value of `ENCRYPTION_KEY` the cipher can actually use: present, 64
      characters, all of them hex digits. */
  predicate KeyUsable(setting: Option<string>) {
    setting.Some? && |setting.value| == KEY_HEX_LENGTH && AllHex(setting.value)
  }

  /** `getEncryptionKey`: refuses an unset or empty variable and one whose length
      is not 64, then decodes it leniently. A 64-character value with a non-hex
      character passes here but decodes to fewer than 32 bytes. */
  function GetEncryptionKey(setting: Option<string>): (r: Result<seq<Byte>, KeyError>)
    ensures r == Failure(KeyNotSet) <==> setting.None? || setting.value == ""
    ensures r == Failure(KeyWrongLength) <==> setting.Some? && setting.value != "" && |setting.value| != KEY_HEX_LENGTH
    ensures r.Success? ==> |r.value| <= KEY_LENGTH
    ensures r.Success? ==> (|r.value| == KEY_LENGTH <==> KeyUsable(setting))
    ensures KeyUsable(setting) ==>
      && r.Success?
      && forall i :: 0 <= i < KEY_LENGTH ==>
           r.value[i] == DigitValue(setting.value[2 * i]) * 16 + DigitValue(setting.value[2 * i + 1])
  {
    if setting.None? || setting.value == "" then Failure(KeyNotSet)
    else if |setting.value| != KEY_HEX_LENGTH then Failure(KeyWrongLength)
    else
      DecodeFullLength(setting.value);
      if AllHex(setting.value) then
        DecodeAllHex(setting.value);
        Success(Decode(setting.value))
      else
        Success(Decode(setting.value))
  }

  /** `encrypt(text)` with the random IV passed in. Every failure, wherever it
      arises, is the one generic message. */
  function Encrypt(setting: Option<string>, aes: Aes, iv: Iv, text: string): (r: Result<string, string>)
    ensures r.Failure? ==> r.error == ENCRYPT_FAILED
    ensures r.Success? <==> KeyUsable(setting)
    ensures r.Success? ==> |r.value| >= 2 * IV_LENGTH + 1 && r.value[2 * IV_LENGTH] == SEPARATOR
    ensures r.Success? ==> multiset(r.value)[SEPARATOR] == 1
    ensures r.Success? ==> Text.Split(r.value, SEPARATOR)[0] == Encode(iv)
    ensures r.Success? ==> Text.Split(r.value, SEPARATOR)[1] == aes.encrypt(GetEncryptionKey(setting).value, iv, text)
  {
    match GetEncryptionKey(setting)
    case Failure(_) => Failure(ENCRYPT_FAILED)
    case Success(key) =>
      if |key| != KEY_LENGTH then Failure(ENCRYPT_FAILED)
      else
        var ivHex := Encode(iv);
        var body := aes.encrypt(key, iv, text);
        NoSeparatorInHex(ivHex);
        NoSeparatorInHex(body);
        Text.SplitPair(ivHex, SEPARATOR, body);
        Success(ivHex + [SEPARATOR] + body)
  }

  lemma NoSeparatorInHex(s: string)
    requires IsLowerHex(s)
    ensures SEPARATOR !in s
    ensures multiset(s)[SEPARATOR] == 0
  {
  }

  /** `decrypt(data)`: refuses a bad key, a text that does not split into exactly
      two pieces on `:`, an IV that does not decode to 16 bytes, and anything the
      block cipher throws on, all with the one generic message. */
  function Decrypt(setting: Option<string>, aes: Aes, data: string): (r: Result<string, string>)
    ensures r.Failure? ==> r.error == DECRYPT_FAILED
    ensures !KeyUsable(setting) ==> r.Failure?
    ensures |Text.Split(data, SEPARATOR)| != 2 ==> r.Failure?
    ensures multiset(data)[SEPARATOR] != 1 ==> r.Failure?
    ensures r.Success? ==> |Decode(Text.Split(data, SEPARATOR)[0])| == IV_LENGTH
    ensures var parts := Text.Split(data, SEPARATOR);
      r.Success? <==>
        && KeyUsable(setting)
        && |parts| == 2
        && |Decode(parts[0])| == IV_LENGTH
        && aes.decrypt(GetEncryptionKey(setting).value, Decode(parts[0]), parts[1]).Some?
    ensures var parts := Text.Split(data, SEPARATOR);
      r.Success? ==>
        && KeyUsable(setting)
        && |parts| == 2
        && |Decode(parts[0])| == IV_LENGTH
        && aes.decrypt(GetEncryptionKey(setting).value, Decode(parts[0]), parts[1]) == Some(r.value)
  {
    match GetEncryptionKey(setting)
    case Failure(_) => Failure(DECRYPT_FAILED)
    case Success(key) =>
      var parts := Text.Split(data, SEPARATOR);
      if |parts| != 2 then Failure(DECRYPT_FAILED)
      else
        var iv := Decode(parts[0]);
        if |key| != KEY_LENGTH || |iv| != IV_LENGTH then Failure(DECRYPT_FAILED)
        else
          match aes.decrypt(key, iv, parts[1])
          case None => Failure(DECRYPT_FAILED)
          case Some(text) => Success(text)
  }

  /** Round trip: under a usable key and a block cipher that inverts itself,
      decrypting what `Encrypt` produced gives the plaintext back, for every
      plaintext and IV. */
  lemma EncryptDecrypt(setting: Option<string>, aes: Aes, iv: Iv, text: string)
    requires Inverse(aes)
    requires KeyUsable(setting)
    ensures Encrypt(setting, aes, iv, text).Success?
    ensures Decrypt(setting, aes, Encrypt(setting, aes, iv, text).value) == Success(text)
  {
    var key := GetEncryptionKey(setting).value;
    var ivHex := Encode(iv);
    var body := aes.encrypt(key, iv, text);
    NoSeparatorInHex(ivHex);
    NoSeparatorInHex(body);
    Text.SplitPair(ivHex, SEPARATOR, body);
    DecodeEncode(iv);
  }

  /** IV freshness shows in the output: the same plaintext under two different IVs
      gives two different records. */
  lemma DistinctIvsDistinctRecords(setting: Option<string>, aes: Aes, iv1: Iv, iv2: Iv, text: string)
    requires KeyUsable(setting)
    requires iv1 != iv2
    ensures Encrypt(setting, aes, iv1, text) != Encrypt(setting, aes, iv2, text)
  {
    EncodeInjective(iv1, iv2);
  }

  /** A key setting the cipher cannot use makes both directions fail, so the
      cipher refuses all work rather than running with a bad key. */
  lemma UnusableKeyRefusesAll(setting: Option<string>, aes: Aes, iv: Iv, text: string, data: string)
    requires !KeyUsable(setting)
    ensures Encrypt(setting, aes, iv, text) == Failure(ENCRYPT_FAILED)
    ensures Decrypt(setting, aes, data) == Failure(DECRYPT_FAILED)
  {
  }

  /** The IV piece is decoded as leniently as `Buffer.from(_, 'hex')` does: text
      after the 32 digits of a valid IV that stops decoding is ignored, so such a
      record still decrypts. */
  lemma IvTrailingTextIgnored(setting: Option<string>, aes: Aes, iv: Iv, junk: string, body: string)
    requires KeyUsable(setting)
    requires StopsDecoding(junk) && SEPARATOR !in junk && SEPARATOR !in body
    ensures Decrypt(setting, aes, Encode(iv) + junk + [SEPARATOR] + body)
         == Decrypt(setting, aes, Encode(iv) + [SEPARATOR] + body)
  {
    NoSeparatorInHex(Encode(iv));
    assert SEPARATOR !in Encode(iv) + junk;
    Text.SplitPair(Encode(iv) + junk, SEPARATOR, body);
    Text.SplitPair(Encode(iv), SEPARATOR, body);
    DecodeEncodeThen(iv, junk);
    DecodeEncode(iv);
  }
}

=== FILE: hex.dfy ===
/** Hexadecimal text as Node's `Buffer` writes and reads it. */
module Hex {

  /** One byte of a Node `Buffer`. */
  type Byte = x: int | 0 <= x < 256

  predicate IsHexDigit(c: char) {
    '0' <= c <= '9' || 'a' <= c <= 'f' || 'A' <= c <= 'F'
  }

  predicate IsLowerHexDigit(c: char) {
    '0' <= c <= '9' || 'a' <= c <= 'f'
  }

  /** Every character is a hex digit of either case. */
  predicate AllHex(s: string) {
    forall i :: 0 <= i < |s| ==> IsHexDigit(s[i])
  }

  /** Every character is a lower-case hex digit, which is all `toString('hex')` ever emits. */
  predicate IsLowerHex(s: string) {
    forall i :: 0 <= i < |s| ==> IsLowerHexDigit(s[i])
  }

  function DigitValue(c: char): (v: nat)
    requires IsHexDigit(c)
    ensures v < 16
  {
    if '0' <= c <= '9' then c as int - '0' as int
    else if 'a' <= c <= 'f' then c as int - 'a' as int + 10
    else c as int - 'A' as int + 10
  }

  /** The lower-case digit for a nibble; reading it back gives the nibble. */
  function Nibble(n: nat): (c: char)
    requires n < 16
    ensures IsLowerHexDigit(c) && IsHexDigit(c)
    ensures DigitValue(c) == n
  {
    if n < 10 then ('0' as int + n) as char else ('a' as int + n - 10) as char
  }

  /** `buf.toString('hex')`: two lower-case digits per byte, high nibble first. */
  function Encode(bytes: seq<Byte>): (s: string)
    ensures |s| == 2 * |bytes|
    ensures IsLowerHex(s)
  {
    if bytes == [] then ""
    else [Nibble(bytes[0] / 16), Nibble(bytes[0] % 16)] + Encode(bytes[1..])
  }

  /** `Buffer.from(s, 'hex')`: decodes digit pairs from the left and stops at the
      first pair that is not two hex digits; an odd trailing character is dropped
      rather than reported. */
  function Decode(s: string): (bytes: seq<Byte>)
    ensures 2 * |bytes| <= |s|
  {
    if |s| < 2 || !IsHexDigit(s[0]) || !IsHexDigit(s[1]) then []
    else [DigitValue(s[0]) * 16 + DigitValue(s[1])] + Decode(s[2..])
  }

  /** True when the text after an encoding cannot extend the decoded bytes:
      it is shorter than a pair or starts with a pair that is not two digits. */
  predicate StopsDecoding(rest: string) {
    |rest| < 2 || !IsHexDigit(rest[0]) || !IsHexDigit(rest[1])
  }

  /** Decoding an encoding gives the bytes back, whatever stopping text follows it. */
  lemma {:induction false} DecodeEncodeThen(bytes: seq<Byte>, rest: string)
    requires StopsDecoding(rest)
    ensures Decode(Encode(bytes) + rest) == bytes
  {
    if bytes != [] {
      var s := Encode(bytes) + rest;
      var hi, lo := Nibble(bytes[0] / 16), Nibble(bytes[0] % 16);
      var tail := Encode(bytes[1..]) + rest;
      assert Encode(bytes) == [hi, lo] + Encode(bytes[1..]);
      assert s == [hi, lo] + tail;
      DecodeStep(hi, lo, tail);
      DecodeEncodeThen(bytes[1..], rest);
      assert bytes[0] / 16 * 16 + bytes[0] % 16 == bytes[0];
      assert bytes == [bytes[0]] + bytes[1..];
    } else {
      assert Encode(bytes) + rest == rest;
    }
  }

  /** One step of decoding: a leading digit pair becomes one byte in front of
      the decoding of the rest. */
  lemma DecodeStep(hi: char, lo: char, rest: string)
    requires IsHexDigit(hi) && IsHexDigit(lo)
    ensures Decode([hi, lo] + rest) == [DigitValue(hi) * 16 + DigitValue(lo)] + Decode(rest)
  {
    assert ([hi, lo] + rest)[2..] == rest;
  }

  /** Round trip of the codec. */
  lemma DecodeEncode(bytes: seq<Byte>)
    ensures Decode(Encode(bytes)) == bytes
  {
    DecodeEncodeThen(bytes, "");
    assert Encode(bytes) + "" == Encode(bytes);
  }

  /** Distinct byte strings have distinct encodings. */
  lemma EncodeInjective(a: seq<Byte>, b: seq<Byte>)
    ensures Encode(a) == Encode(b) ==> a == b
  {
    DecodeEncode(a);
    DecodeEncode(b);
  }

  /** What lenient decoding reads: byte i comes from the digit pair at 2i and
      2i+1, high digit first. */
  lemma {:induction false} DecodeReadsPairs(s: string)
    ensures forall i :: 0 <= i < |Decode(s)| ==>
      && IsHexDigit(s[2 * i]) && IsHexDigit(s[2 * i + 1])
      && Decode(s)[i] == DigitValue(s[2 * i]) * 16 + DigitValue(s[2 * i + 1])
  {
    if !StopsDecoding(s) {
      var tail := s[2..];
      var d := Decode(s);
      assert d == [DigitValue(s[0]) * 16 + DigitValue(s[1])] + Decode(tail);
      DecodeReadsPairs(tail);
      forall i | 1 <= i < |d|
        ensures && IsHexDigit(s[2 * i]) && IsHexDigit(s[2 * i + 1])
                && d[i] == DigitValue(s[2 * i]) * 16 + DigitValue(s[2 * i + 1])
      {
        assert d[i] == Decode(tail)[i - 1];
        assert tail[2 * (i - 1)] == s[2 * i] && tail[2 * (i - 1) + 1] == s[2 * i + 1];
      }
    }
  }

  /** Lenient decoding stops exactly at the first place that is not a digit pair. */
  lemma {:induction false} DecodeStopsAtNonPair(s: string)
    ensures StopsDecoding(s[2 * |Decode(s)|..])
  {
    if !StopsDecoding(s) {
      var tail := s[2..];
      assert |Decode(s)| == 1 + |Decode(tail)|;
      DecodeStopsAtNonPair(tail);
      assert s[2 * |Decode(s)|..] == tail[2 * |Decode(tail)|..];
    }
  }

  /** An even-length text decodes to its full byte count exactly when every
      character is a hex digit; otherwise Node silently returns fewer bytes. */
  lemma DecodeFullLength(s: string)
    requires |s| % 2 == 0
    ensures |Decode(s)| == |s| / 2 <==> AllHex(s)
  {
    DecodeReadsPairs(s);
    DecodeStopsAtNonPair(s);
    var k := |Decode(s)|;
    if k == |s| / 2 {
      forall i | 0 <= i < |s| ensures IsHexDigit(s[i]) {
        assert i == 2 * (i / 2) || i == 2 * (i / 2) + 1;
      }
    }
  }

  /** An all-hex text decodes pair by pair: byte i is read from characters 2i and
      2i+1, high nibble first. */
  lemma DecodeAllHex(s: string)
    requires |s| % 2 == 0 && AllHex(s)
    ensures |Decode(s)| == |s| / 2
    ensures forall i :: 0 <= i < |s| / 2 ==> Decode(s)[i] == DigitValue(s[2 * i]) * 16 + DigitValue(s[2 * i + 1])
  {
    DecodeFullLength(s);
    DecodeReadsPairs(s);
  }
}

=== FILE: json.dfy ===
/** JSON values as the request handlers see them after `express.json()` or
    `response.json()`, with the JavaScript reads the handlers perform on them. */
module Json {
  import opened Results
  import Text
  import Hex

  datatype Json =
    | JNull
    | JBool(b: bool)
    | JNumber(n: real)
    | JString(s: string)
    | JArray(items: seq<Json>)
    | JObject(fields: map<string, Json>)

  /** JavaScript truthiness of a value that may be `undefined` (`None`): `undefined`,
      `null`, `false`, `0` and `""` are falsy; arrays and objects, even empty ones,
      are truthy. */
  predicate Truthy(v: Option<Json>) {
    match v
    case None => false
    case Some(JNull) => false
    case Some(JBool(b)) => b
    case Some(JNumber(n)) => n != 0.0
    case Some(JString(s)) => s != ""
    case Some(JArray(_)) => true
    case Some(JObject(_)) => true
  }

  /** `x || fallback`. */
  function OrElse(v: Option<Json>, fallback: Json): (r: Json)
    ensures Truthy(v) ==> Some(r) == v
    ensures !Truthy(v) ==> r == fallback
  {
    if Truthy(v) then v.value else fallback
  }

  /** The array index a property name denotes: a decimal numeral with no
      leading zero. */
  function ArrayIndex(key: string): (r: Option<nat>)
    ensures r.Some? ==> key == Text.Decimal(r.value)
  {
    if key != [] && (forall i :: 0 <= i < |key| ==> Text.IsDecimalDigit(key[i])) && (key[0] != '0' || key == "0")
    then
      IndexIsDecimal(key);
      Some(Text.Value(key, 10))
    else None
  }

  /** Every rendered number is an array index, and it denotes that number. */
  lemma ArrayIndexOfDecimal(n: nat)
    ensures ArrayIndex(Text.Decimal(n)) == Some(n)
  {
    var key := Text.Decimal(n);
    if key[0] == '0' {
      assert key == [Text.DecimalDigit(0)];
    }
    Text.ValueOfDecimal(n);
  }

  lemma {:induction false} IndexIsDecimal(key: string)
    requires key != [] && forall i :: 0 <= i < |key| ==> Text.IsDecimalDigit(key[i])
    requires key[0] != '0' || key == "0"
    ensures key == Text.Decimal(Text.Value(key, 10))
  {
    var n := Text.Value(key, 10);
    var init := key[..|key| - 1];
    var last := key[|key| - 1];
    if |key| == 1 {
      assert init == [];
      assert Text.Value(init, 10) == 0;
      assert n == Text.Value(init, 10) * 10 + Hex.DigitValue(last);
      assert Text.DecimalDigit(n) == last;
    } else {
      assert init[0] == key[0];
      IndexIsDecimal(init);
      LeadingDigitPositive(init);
      assert n / 10 == Text.Value(init, 10);
      assert n % 10 == Hex.DigitValue(last);
      assert Text.DecimalDigit(n % 10) == last;
      assert key == init + [last];
    }
  }

  /** A numeral that does not start with `0` denotes a positive number. */
  lemma {:induction false} LeadingDigitPositive(d: string)
    requires d != [] && forall i :: 0 <= i < |d| ==> Text.IsDecimalDigit(d[i])
    requires d[0] != '0'
    ensures Text.Value(d, 10) >= 1
  {
    if |d| > 1 {
      var init := d[..|d| - 1];
      assert init[0] == d[0];
      LeadingDigitPositive(init);
    }
  }

  /** `v[key]` on a value that is neither `null` nor `undefined`; `None` is
      `undefined`. Objects give their own property (none of the names the core
      reads exists on `Object.prototype`); arrays and strings give an element for
      an index in range; numbers and booleans have no such properties. */
  function Get(v: Json, key: string): (r: Option<Json>)
    ensures v.JObject? ==> (r.Some? <==> key in v.fields) && (r.Some? ==> r.value == v.fields[key])
    ensures v.JNull? || v.JBool? || v.JNumber? ==> r.None?
  {
    match v
    case JObject(fields) => if key in fields then Some(fields[key]) else None
    case JArray(items) =>
      (match ArrayIndex(key)
       case Some(i) => if i < |items| then Some(items[i]) else None
       case None => None)
    case JString(s) =>
      (match ArrayIndex(key)
       case Some(i) => if i < |s| then Some(JString([s[i]])) else None
       case None => None)
    case _ => None
  }

  /** Indexing an array by the rendered number `i` gives its `i`-th element when
      `i` is in range, and `undefined` past the end. */
  lemma GetIndex(items: seq<Json>, i: nat)
    ensures Get(JArray(items), Text.Decimal(i)) == if i < |items| then Some(items[i]) else None
  {
    ArrayIndexOfDecimal(i);
  }

  /** Indexing a string by `i` gives its `i`-th character as a one-character
      string, and `undefined` past the end. */
  lemma GetCharIndex(s: string, i: nat)
    ensures Get(JString(s), Text.Decimal(i)) == if i < |s| then Some(JString([s[i]])) else None
  {
    ArrayIndexOfDecimal(i);
  }

  /** Optional chaining `v?.[key]`: `undefined` when `v` is `null` or `undefined`. */
  function GetOpt(v: Option<Json>, key: string): (r: Option<Json>)
    ensures v.None? || v == Some(JNull) ==> r.None?
    ensures v.Some? && v.value.JObject? ==> r == Get(v.value, key)
  {
    if v.None? || v.value.JNull? then None else Get(v.value, key)
  }
}

=== FILE: results.dfy ===
/** Optional values and fallible results, shared by every module of the model. */
module Results {

  /** A value that may be absent: JavaScript's `undefined`, or a lookup miss. */
  datatype Option<+T> = None | Some(value: T)

  /** The outcome of an operation that can throw: either its value or the error it reports. */
  datatype Result<+T, +E> = Success(value: T) | Failure(error: E)
}

=== FILE: server.dfy ===
/** The decision logic of the `/api/setup`, `/api/chat` and `/api/logout`
    handlers of `server/server.js`. Each handler is one atomic transition from
    the request inputs and the store to a response and the new store. URL
    parsing, the upstream HTTP call, the block cipher and the random sources are
    inputs. */
module Server {
  import opened Results
  import opened Json
  import Text
  import Encryption
  import Sessions

  const SESSION_COOKIE := "mistral_session"
  const COOKIE_PATH := "/"
  const DEFAULT_MODEL := "codestral-latest"

  const MISSING_FIELDS := "Missing required fields: apiKey and chatEndpoint are required"
  const INVALID_URL := "Invalid endpoint URL format"
  const SETUP_FAILED := "Internal server error during setup"
  const SETUP_DONE := "Configuration saved securely"
  const NO_SESSION := "No session found. Please configure your API key first."
  const SESSION_INVALID := "Session expired or invalid. Please reconfigure your API key."
  const BAD_MESSAGE := "Invalid request: message is required"
  const CHAT_FAILED := "Internal server error during chat request"
  const LOGOUT_DONE := "Session cleared successfully"
  const UPSTREAM_ERROR_PREFIX := "Mistral API error ("

  /** The environment variables the core reads. */
  datatype Env = Env(encryptionKey: Option<string>, sessionMaxAge: Option<string>, nodeEnv: Option<string>)

  /** What `/api/setup` stores in a session. */
  datatype SessionData = SessionData(encryptedApiKey: string, chatEndpoint: Json, completionEndpoint: Json)

  type Store = Sessions.Store<SessionData>

  datatype Cookie = Cookie(
    name: string, value: string, httpOnly: bool, secure: bool, sameSite: string, maxAge: int, path: string)

  /** What a response does to the browser's session cookie. */
  datatype CookieUpdate = KeepCookie | SetCookie(cookie: Cookie) | ClearCookie(name: string, path: string)

  /** The three JSON shapes the handlers answer with. */
  datatype Body =
    | ErrorBody(error: string)
    | SuccessBody(message: string)
    | ReplyBody(reply: Json, model: Json, usage: Json)

  datatype Response = Response(status: int, body: Body, cookie: CookieUpdate)

  /** The request the proxy sends upstream: URL, `Authorization` header, and the
      JSON body's `model` and `messages`. */
  datatype UpstreamRequest = UpstreamRequest(endpoint: Json, authorization: string, model: string, messages: seq<Json>)

  /** What `fetch` and the read of the response body produced: no response at
      all; a status line whose body could not be read to the end (the read that
      `response.text()` or `response.json()` awaits rejects); or a status line with
      the body read, parsed as JSON (`None` when it is not JSON). */
  datatype UpstreamResult =
    | Unreachable
    | BodyLost(status: nat, statusText: string)
    | Answered(status: nat, statusText: string, payload: Option<Json>)

  /** A handler's effect: the response, the new store, and the upstream request it
      sent, if any. */
  datatype Outcome = Outcome(response: Response, store: Store, sent: Option<UpstreamRequest>)

  function Reject(status: int, error: string, store: Store): (o: Outcome)
    ensures o.response.status == status && o.response.body == ErrorBody(error)
    ensures o.response.cookie == KeepCookie && o.store == store && o.sent.None?
  {
    Outcome(Response(status, ErrorBody(error), KeepCookie), store, None)
  }

  // ---------------------------------------------------------------------------
  // POST /api/setup
  // ---------------------------------------------------------------------------

  /** The session cookie `/api/setup` issues. */
  function SessionCookie(env: Env, id: Sessions.SessionId): (c: Cookie)
    ensures c.name == SESSION_COOKIE && c.value == id && c.path == COOKIE_PATH
    ensures c.httpOnly && c.sameSite == "lax"
    ensures c.secure <==> env.nodeEnv == Some("production")
    ensures c.maxAge == Sessions.MaxAgeSetting(env.sessionMaxAge)
  {
    Cookie(SESSION_COOKIE, id, true, env.nodeEnv == Some("production"), "lax",
           Sessions.MaxAgeSetting(env.sessionMaxAge), COOKIE_PATH)
  }

  /** Both fields required by setup are truthy. */
  predicate HasRequiredFields(body: Json) {
    Truthy(Get(body, "apiKey")) && Truthy(Get(body, "chatEndpoint"))
  }

  /** `new URL(...)` accepts the chat endpoint and, when it is truthy, the
      completion endpoint. */
  predicate EndpointsParse(body: Json, urlOk: Json -> bool)
    requires HasRequiredFields(body)
  {
    && urlOk(Get(body, "chatEndpoint").value)
    && (Truthy(Get(body, "completionEndpoint")) ==> urlOk(Get(body, "completionEndpoint").value))
  }

  /** `encrypt(apiKey)`; a key that is not a string makes `cipher.update` throw,
      which `encrypt` reports like any other failure. */
  function EncryptApiKey(env: Env, aes: Encryption.Aes, iv: Encryption.Iv, apiKey: Json): (r: Result<string, string>)
    ensures r.Success? <==> apiKey.JString? && Encryption.KeyUsable(env.encryptionKey)
    ensures r.Failure? ==> r.error == Encryption.ENCRYPT_FAILED
  {
    if apiKey.JString? then Encryption.Encrypt(env.encryptionKey, aes, iv, apiKey.s)
    else Failure(Encryption.ENCRYPT_FAILED)
  }

  /** `POST /api/setup`. */
  function Setup(env: Env, urlOk: Json -> bool, aes: Encryption.Aes, iv: Encryption.Iv,
                 entropy: Sessions.Entropy, now: int, store: Store, body: Json): (o: Outcome)
    ensures o.sent.None?
    ensures !HasRequiredFields(body) ==> o == Reject(400, MISSING_FIELDS, store)
    ensures HasRequiredFields(body) && !EndpointsParse(body, urlOk) ==> o == Reject(400, INVALID_URL, store)
    ensures o.response.status == 200 <==>
              && HasRequiredFields(body) && EndpointsParse(body, urlOk)
              && Get(body, "apiKey").value.JString? && Encryption.KeyUsable(env.encryptionKey)
    ensures o.response.status != 200 ==> o.store == store && o.response.cookie == KeepCookie
    ensures o.response.status == 400 ==> !HasRequiredFields(body) || !EndpointsParse(body, urlOk)
    ensures o.response.status !in {200, 400} ==> o == Reject(500, SETUP_FAILED, store)
    ensures (&& HasRequiredFields(body) && EndpointsParse(body, urlOk)
             && EncryptApiKey(env, aes, iv, Get(body, "apiKey").value).Failure?)
            ==> o == Reject(500, SETUP_FAILED, store)
    ensures o.response.status == 200 ==>
              var id := Sessions.GenerateSessionId(entropy);
              && o.response.body == SuccessBody(SETUP_DONE)
              && o.response.cookie == SetCookie(SessionCookie(env, id))
              && id in o.store.sessions
              && o.store.sessions - {id} == store.sessions - {id}
              && o.store.maxAge == store.maxAge
              && o.store.sessions[id].createdAt == now && o.store.sessions[id].lastUsedAt == now
              && o.store.sessions[id].data.chatEndpoint == Get(body, "chatEndpoint").value
              && o.store.sessions[id].data.completionEndpoint == OrElse(Get(body, "completionEndpoint"), JNull)
              && o.store.sessions[id].data.encryptedApiKey
                 == Encryption.Encrypt(env.encryptionKey, aes, iv, Get(body, "apiKey").value.s).value
  {
    var apiKey := Get(body, "apiKey");
    var chatEndpoint := Get(body, "chatEndpoint");
    var completionEndpoint := Get(body, "completionEndpoint");
    if !Truthy(apiKey) || !Truthy(chatEndpoint) then Reject(400, MISSING_FIELDS, store)
    else if !urlOk(chatEndpoint.value) || (Truthy(completionEndpoint) && !urlOk(completionEndpoint.value)) then
      Reject(400, INVALID_URL, store)
    else
      match EncryptApiKey(env, aes, iv, apiKey.value)
      case Failure(_) => Reject(500, SETUP_FAILED, store)
      case Success(encrypted) =>
        var data := SessionData(encrypted, chatEndpoint.value, OrElse(completionEndpoint, JNull));
        var (store', id) := Sessions.CreateSession(store, data, entropy, now);
        Outcome(Response(200, SuccessBody(SETUP_DONE), SetCookie(SessionCookie(env, id))), store', None)
  }

  // ---------------------------------------------------------------------------
  // POST /api/chat
  // ---------------------------------------------------------------------------

  /** `{role: 'user', content: message}`. */
  function UserMessage(message: string): Json {
    JObject(map["role" := JString("user"), "content" := JString(message)])
  }

  /** The earlier turns the client sent: `history` when it is an array, else none. */
  function PriorTurns(history: Option<Json>): (turns: seq<Json>)
    ensures history.Some? && history.value.JArray? ==> turns == history.value.items
    ensures !(history.Some? && history.value.JArray?) ==> turns == []
  {
    if history.Some? && history.value.JArray? then history.value.items else []
  }

  /** The message list sent upstream: the prior turns in order, then exactly one
      user turn carrying the new message. */
  function UpstreamMessages(history: Option<Json>, message: string): (msgs: seq<Json>)
    ensures |msgs| == |PriorTurns(history)| + 1
    ensures msgs[..|msgs| - 1] == PriorTurns(history)
    ensures msgs[|msgs| - 1] == UserMessage(message)
  {
    PriorTurns(history) + [UserMessage(message)]
  }

  /** `data.choices?.[0]?.message?.content || ''`. */
  function ExtractReply(data: Json): (reply: Json)
    ensures Truthy(Some(reply)) || reply == JString("")
  {
    var content := GetOpt(GetOpt(GetOpt(Get(data, "choices"), "0"), "message"), "content");
    OrElse(content, JString(""))
  }

  /** The text of the 502 error: the upstream status and status text. */
  function UpstreamErrorMessage(status: nat, statusText: string): string {
    UPSTREAM_ERROR_PREFIX + Text.Decimal(status) + "): " + statusText
  }

  predicate IsOk(status: nat) {
    200 <= status <= 299
  }

  /** Everything `/api/chat` does once it holds the decrypted key: build and send
      the upstream request, then translate what came back. */
  function Relay(data: SessionData, apiKey: string, message: string, history: Option<Json>,
                 call: UpstreamRequest -> UpstreamResult, store: Store): (o: Outcome)
    ensures o.store == store && o.response.cookie == KeepCookie
    ensures o.sent == Some(UpstreamRequest(data.chatEndpoint, "Bearer " + apiKey, DEFAULT_MODEL,
                                           UpstreamMessages(history, message)))
    ensures o.response.status in {200, 500, 502}
    ensures o.response.status == 502 <==> call(o.sent.value).Answered? && !IsOk(call(o.sent.value).status)
    ensures o.response.status == 500 ==> o.response.body == ErrorBody(CHAT_FAILED)
    ensures call(o.sent.value).Unreachable? || call(o.sent.value).BodyLost? ==>
              o.response == Response(500, ErrorBody(CHAT_FAILED), KeepCookie)
    ensures o.response.status == 200 ==>
              && call(o.sent.value).Answered?
              && call(o.sent.value).payload.Some? && call(o.sent.value).payload.value != JNull
              && o.response.body.ReplyBody?
    ensures var answer := call(o.sent.value);
            answer.Answered? && !IsOk(answer.status) ==>
              o.response == Response(502, ErrorBody(UpstreamErrorMessage(answer.status, answer.statusText)), KeepCookie)
    ensures var answer := call(o.sent.value);
            answer.Answered? && IsOk(answer.status) && answer.payload.Some? && answer.payload.value != JNull ==>
              var d := answer.payload.value;
              o.response == Response(200, ReplyBody(ExtractReply(d), OrElse(Get(d, "model"), JString(DEFAULT_MODEL)),
                                                    OrElse(Get(d, "usage"), JNull)), KeepCookie)
  {
    var request := UpstreamRequest(data.chatEndpoint, "Bearer " + apiKey, DEFAULT_MODEL,
                                   UpstreamMessages(history, message));
    var reply := call(request);
    var response :=
      match reply
      case Unreachable => Response(500, ErrorBody(CHAT_FAILED), KeepCookie)
      case BodyLost(_, _) => Response(500, ErrorBody(CHAT_FAILED), KeepCookie)
      case Answered(status, statusText, payload) =>
        if !IsOk(status) then Response(502, ErrorBody(UpstreamErrorMessage(status, statusText)), KeepCookie)
        else if payload.None? || payload.value.JNull? then
          // an unparsable body, or `null.choices`, throws
          Response(500, ErrorBody(CHAT_FAILED), KeepCookie)
        else
          var d := payload.value;
          Response(200, ReplyBody(ExtractReply(d), OrElse(Get(d, "model"), JString(DEFAULT_MODEL)),
                                  OrElse(Get(d, "usage"), JNull)), KeepCookie);
    Outcome(response, store, Some(request))
  }

  /** A present, non-empty session cookie. */
  predicate HasCookie(cookie: Option<string>) {
    cookie.Some? && cookie.value != ""
  }

  /** `message` is a non-empty string. */
  predicate ValidMessage(body: Json) {
    Truthy(Get(body, "message")) && Get(body, "message").value.JString?
  }

  /** `POST /api/chat`. */
  function Chat(env: Env, aes: Encryption.Aes, call: UpstreamRequest -> UpstreamResult, now: int,
                store: Store, cookie: Option<string>, body: Json): (o: Outcome)
    ensures !HasCookie(cookie) ==> o == Reject(401, NO_SESSION, store)
    ensures HasCookie(cookie) ==>
              var (looked, found) := Sessions.GetSession(store, cookie.value, now);
              && (found.None? ==> o == Reject(401, SESSION_INVALID, looked))
              && (found.Some? && !ValidMessage(body) ==> o == Reject(400, BAD_MESSAGE, looked))
              && (found.Some? ==> o.store == looked)
    ensures HasCookie(cookie) ==>
              var (looked, found) := Sessions.GetSession(store, cookie.value, now);
              found.Some? && ValidMessage(body) ==>
                var decrypted := Encryption.Decrypt(env.encryptionKey, aes, found.value.data.encryptedApiKey);
                && (decrypted.Failure? ==> o == Reject(500, CHAT_FAILED, looked))
                && (decrypted.Success? ==>
                      o == Relay(found.value.data, decrypted.value, Get(body, "message").value.s,
                                 Get(body, "history"), call, looked))
    ensures o.response.status == 401 <==>
              !HasCookie(cookie) || Sessions.GetSession(store, cookie.value, now).1.None?
    ensures o.response.status in {200, 400, 401, 500, 502}
    ensures o.response.cookie == KeepCookie
    ensures o.sent.Some? ==> o.response.status != 400 && o.response.status != 401
  {
    if !HasCookie(cookie) then Reject(401, NO_SESSION, store)
    else
      var (looked, found) := Sessions.GetSession(store, cookie.value, now);
      if found.None? then Reject(401, SESSION_INVALID, looked)
      else if !ValidMessage(body) then Reject(400, BAD_MESSAGE, looked)
      else
        var data := found.value.data;
        match Encryption.Decrypt(env.encryptionKey, aes, data.encryptedApiKey)
        case Failure(_) => Reject(500, CHAT_FAILED, looked)
        case Success(apiKey) =>
          Relay(data, apiKey, Get(body, "message").value.s, Get(body, "history"), call, looked)
  }

  // ---------------------------------------------------------------------------
  // POST /api/logout
  // ---------------------------------------------------------------------------

  /** `POST /api/logout`: deletes the session named by a non-empty cookie, always
      clears the cookie, always succeeds. */
  function Logout(store: Store, cookie: Option<string>): (o: Outcome)
    ensures o.response == Response(200, SuccessBody(LOGOUT_DONE), ClearCookie(SESSION_COOKIE, COOKIE_PATH))
    ensures o.sent.None? && o.store.maxAge == store.maxAge
    ensures HasCookie(cookie) ==> o.store.sessions.Keys == store.sessions.Keys - {cookie.value}
    ensures !HasCookie(cookie) ==> o.store == store
    ensures forall id :: id in o.store.sessions ==> id in store.sessions && o.store.sessions[id] == store.sessions[id]
  {
    var store' := if HasCookie(cookie) then Sessions.DeleteSession(store, cookie.value).0 else store;
    Outcome(Response(200, SuccessBody(LOGOUT_DONE), ClearCookie(SESSION_COOKIE, COOKIE_PATH)), store', None)
  }

  // ---------------------------------------------------------------------------
  // Properties of the handlers
  // ---------------------------------------------------------------------------

  /** Setup validates before it touches the cipher or the store: a 400 answer and
      the unchanged store are the same whatever the key, cipher, IV, random bytes
      or clock. */
  lemma SetupValidatesBeforeEncrypting(
    urlOk: Json -> bool, store: Store, body: Json,
    env1: Env, aes1: Encryption.Aes, iv1: Encryption.Iv, e1: Sessions.Entropy, now1: int,
    env2: Env, aes2: Encryption.Aes, iv2: Encryption.Iv, e2: Sessions.Entropy, now2: int)
    requires Setup(env1, urlOk, aes1, iv1, e1, now1, store, body).response.status == 400
    ensures Setup(env2, urlOk, aes2, iv2, e2, now2, store, body) == Setup(env1, urlOk, aes1, iv1, e1, now1, store, body)
    ensures Setup(env1, urlOk, aes1, iv1, e1, now1, store, body).store == store
  {
  }

  /** The key setup stores is recoverable: decrypting the stored record gives the
      submitted key back. */
  lemma SetupStoresRecoverableKey(env: Env, urlOk: Json -> bool, aes: Encryption.Aes, iv: Encryption.Iv,
                                  entropy: Sessions.Entropy, now: int, store: Store, body: Json)
    requires Encryption.Inverse(aes)
    requires Setup(env, urlOk, aes, iv, entropy, now, store, body).response.status == 200
    ensures var o := Setup(env, urlOk, aes, iv, entropy, now, store, body);
            var id := o.response.cookie.cookie.value;
            && id in o.store.sessions
            && Encryption.Decrypt(env.encryptionKey, aes, o.store.sessions[id].data.encryptedApiKey)
               == Success(Get(body, "apiKey").value.s)
  {
    Encryption.EncryptDecrypt(env.encryptionKey, aes, iv, Get(body, "apiKey").value.s);
  }

  /** The cookie's lifetime and the store's expiry follow one rule: for a store
      built from the same environment, the cookie's `maxAge` is the store's maximum
      age, and the new session answers its first lookup exactly while no more than
      that has passed. */
  lemma CookieLifetimeMatchesStore(env: Env, urlOk: Json -> bool, aes: Encryption.Aes, iv: Encryption.Iv,
                                   entropy: Sessions.Entropy, now: int, store: Store, body: Json, later: int)
    requires store.maxAge == Sessions.MaxAgeSetting(env.sessionMaxAge)
    requires Setup(env, urlOk, aes, iv, entropy, now, store, body).response.status == 200
    ensures var o := Setup(env, urlOk, aes, iv, entropy, now, store, body);
            var cookie := o.response.cookie.cookie;
            && cookie.maxAge == store.maxAge
            && (Sessions.GetSession(o.store, cookie.value, later).1.Some? <==> later - now <= cookie.maxAge)
  {
  }

  /** A server fresh from its environment: the first successful setup leaves the
      store holding exactly the new session, and the cookie it issues lives
      exactly as long as the store keeps that session idle. */
  lemma FirstSetupOnNewStore(env: Env, urlOk: Json -> bool, aes: Encryption.Aes, iv: Encryption.Iv,
                             entropy: Sessions.Entropy, now: int, body: Json, later: int)
    requires Setup(env, urlOk, aes, iv, entropy, now, Sessions.NewStore(env.sessionMaxAge), body).response.status == 200
    ensures var o := Setup(env, urlOk, aes, iv, entropy, now, Sessions.NewStore(env.sessionMaxAge), body);
            var cookie := o.response.cookie.cookie;
            && o.store.sessions.Keys == {cookie.value}
            && cookie.maxAge == o.store.maxAge
            && (Sessions.GetSession(o.store, cookie.value, later).1.Some? <==> later - now <= cookie.maxAge)
  {
    CookieLifetimeMatchesStore(env, urlOk, aes, iv, entropy, now, Sessions.NewStore(env.sessionMaxAge), body, later);
  }

  /** Chat checks the cookie, the session and the message before anything else: a
      400 or 401 answer sends nothing upstream and is the same whatever the key,
      cipher or upstream. */
  lemma ChatChecksBeforeCrypto(
    now: int, store: Store, cookie: Option<string>, body: Json,
    env1: Env, aes1: Encryption.Aes, call1: UpstreamRequest -> UpstreamResult,
    env2: Env, aes2: Encryption.Aes, call2: UpstreamRequest -> UpstreamResult)
    requires Chat(env1, aes1, call1, now, store, cookie, body).response.status in {400, 401}
    ensures Chat(env1, aes1, call1, now, store, cookie, body).sent.None?
    ensures Chat(env2, aes2, call2, now, store, cookie, body) == Chat(env1, aes1, call1, now, store, cookie, body)
  {
  }

  /** What chat sends upstream: the session's chat endpoint, the decrypted key as a
      bearer token, the fixed model, and the prior turns followed by the new
      message. */
  lemma ChatForwardsRequest(env: Env, aes: Encryption.Aes, call: UpstreamRequest -> UpstreamResult, now: int,
                            store: Store, cookie: Option<string>, body: Json)
    requires Chat(env, aes, call, now, store, cookie, body).sent.Some?
    ensures HasCookie(cookie) && cookie.value in store.sessions && ValidMessage(body)
    ensures var data := store.sessions[cookie.value].data;
            var decrypted := Encryption.Decrypt(env.encryptionKey, aes, data.encryptedApiKey);
            && decrypted.Success?
            && Chat(env, aes, call, now, store, cookie, body).sent.value
               == UpstreamRequest(data.chatEndpoint, "Bearer " + decrypted.value, DEFAULT_MODEL,
                                  UpstreamMessages(Get(body, "history"), Get(body, "message").value.s))
  {
  }

  /** The upstream's answer does not depend on the bearer token. */
  ghost predicate IgnoresBearer(call: UpstreamRequest -> UpstreamResult) {
    forall r1: UpstreamRequest, r2: UpstreamRequest ::
      r1.endpoint == r2.endpoint && r1.model == r2.model && r1.messages == r2.messages ==> call(r1) == call(r2)
  }

  /** The key stored under the cookie's session, if there is one, decrypts under
      this key setting and cipher. */
  predicate DecryptsSession(env: Env, aes: Encryption.Aes, store: Store, cookie: Option<string>) {
    HasCookie(cookie) && cookie.value in store.sessions ==>
      Encryption.Decrypt(env.encryptionKey, aes, store.sessions[cookie.value].data.encryptedApiKey).Success?
  }

  /** The decrypted key never reaches a response: with an upstream that answers
      regardless of the bearer token, two servers whose keys decrypt to different
      plaintexts give identical responses and stores. */
  lemma ChatHidesKey(call: UpstreamRequest -> UpstreamResult, now: int, store: Store, cookie: Option<string>, body: Json,
                     env1: Env, aes1: Encryption.Aes, env2: Env, aes2: Encryption.Aes)
    requires IgnoresBearer(call)
    requires DecryptsSession(env1, aes1, store, cookie) && DecryptsSession(env2, aes2, store, cookie)
    ensures Chat(env1, aes1, call, now, store, cookie, body).response == Chat(env2, aes2, call, now, store, cookie, body).response
    ensures Chat(env1, aes1, call, now, store, cookie, body).store == Chat(env2, aes2, call, now, store, cookie, body).store
  {
  }

  /** A non-success upstream status becomes a 502 whose message carries that status:
      `parseInt` of the text after the prefix reads it back. */
  lemma UpstreamFailureReportsStatus(env: Env, aes: Encryption.Aes, call: UpstreamRequest -> UpstreamResult, now: int,
                                     store: Store, cookie: Option<string>, body: Json)
    requires Chat(env, aes, call, now, store, cookie, body).response.status == 502
    ensures var o := Chat(env, aes, call, now, store, cookie, body);
            var answer := call(o.sent.value);
            && answer.Answered? && !IsOk(answer.status)
            && o.response.body == ErrorBody(UpstreamErrorMessage(answer.status, answer.statusText))
            && Text.ParseInt(o.response.body.error[|UPSTREAM_ERROR_PREFIX|..]) == Some(answer.status)
  {
    var o := Chat(env, aes, call, now, store, cookie, body);
    var answer := call(o.sent.value);
    var msg := UpstreamErrorMessage(answer.status, answer.statusText);
    assert msg[|UPSTREAM_ERROR_PREFIX|..] == Text.Decimal(answer.status) + ("): " + answer.statusText);
    Text.ParseIntOfDecimal(answer.status, "): " + answer.statusText);
  }

  /** Reply extraction: in an answer shaped `{choices: [{message: {content}}, ...]}`,
      whatever else the answer, the first choice and its message hold, a truthy
      `content` is the reply and a falsy one gives `''`; so does an answer without
      `choices`, with an empty `choices` array, or whose first choice has no
      `message`. Later choices are never read. */
  lemma ReplyExtraction(fields: map<string, Json>, choice: map<string, Json>, choices: seq<Json>,
                        message: map<string, Json>, content: Json)
    ensures ExtractReply(JObject(fields["choices" := JArray([JObject(choice["message" := JObject(message["content" := content])])] + choices)]))
            == if Truthy(Some(content)) then content else JString("")
    ensures "message" !in choice ==> ExtractReply(JObject(fields["choices" := JArray([JObject(choice)] + choices)])) == JString("")
    ensures "choices" !in fields ==> ExtractReply(JObject(fields)) == JString("")
    ensures ExtractReply(JObject(fields["choices" := JArray([])])) == JString("")
  {
    GetIndex([JObject(choice["message" := JObject(message["content" := content])])] + choices, 0);
    GetIndex([JObject(choice)] + choices, 0);
    GetIndex([], 0);
    assert Text.Decimal(0) == "0";
  }

  /** The whole custody cycle: after a successful setup, a chat with the issued
      cookie within the maximum age sends upstream exactly the key that was
      submitted, as a bearer token. */
  lemma SetupThenChat(env: Env, urlOk: Json -> bool, aes: Encryption.Aes, iv: Encryption.Iv,
                      entropy: Sessions.Entropy, now: int, store: Store, setupBody: Json,
                      call: UpstreamRequest -> UpstreamResult, later: int, chatBody: Json)
    requires Encryption.Inverse(aes)
    requires Encryption.KeyUsable(env.encryptionKey)
    requires HasRequiredFields(setupBody) && EndpointsParse(setupBody, urlOk)
    requires Get(setupBody, "apiKey").value.JString?
    requires later - now <= store.maxAge
    requires ValidMessage(chatBody)
    ensures var s := Setup(env, urlOk, aes, iv, entropy, now, store, setupBody);
            s.response.status == 200 &&
            var c := Chat(env, aes, call, later, s.store, Some(s.response.cookie.cookie.value), chatBody);
            c.sent == Some(UpstreamRequest(Get(setupBody, "chatEndpoint").value,
                                           "Bearer " + Get(setupBody, "apiKey").value.s, DEFAULT_MODEL,
                                           UpstreamMessages(Get(chatBody, "history"), Get(chatBody, "message").value.s)))
  {
    SetupStoresRecoverableKey(env, urlOk, aes, iv, entropy, now, store, setupBody);
  }

  /** The reply's defaults: with an answer that names no model and no usage, the
      reply reports the fixed model and `null` usage; truthy ones pass through. */
  lemma ReplyDefaults(data: SessionData, apiKey: string, message: string, history: Option<Json>,
                      call: UpstreamRequest -> UpstreamResult, store: Store, fields: map<string, Json>)
    requires var answer := call(Relay(data, apiKey, message, history, call, store).sent.value);
             answer.Answered? && IsOk(answer.status) && answer.payload == Some(JObject(fields))
    ensures var o := Relay(data, apiKey, message, history, call, store);
            && o.response.status == 200
            && o.response.body.reply == ExtractReply(JObject(fields))
            && ("model" !in fields ==> o.response.body.model == JString(DEFAULT_MODEL))
            && ("usage" !in fields ==> o.response.body.usage == JNull)
            && ("model" in fields && Truthy(Some(fields["model"])) ==> o.response.body.model == fields["model"])
            && ("usage" in fields && Truthy(Some(fields["usage"])) ==> o.response.body.usage == fields["usage"])
  {
  }

  /** Logout is idempotent: a second call answers the same and changes nothing. */
  lemma LogoutTwice(store: Store, cookie: Option<string>)
    ensures var first := Logout(store, cookie);
            Logout(first.store, cookie) == first
  {
  }

  /** After logout the same cookie no longer authenticates a chat. */
  lemma LogoutEndsSession(env: Env, aes: Encryption.Aes, call: UpstreamRequest -> UpstreamResult, now: int,
                          store: Store, cookie: Option<string>, body: Json)
    requires HasCookie(cookie)
    ensures var out := Logout(store, cookie).store;
            Chat(env, aes, call, now, out, cookie, body) == Reject(401, SESSION_INVALID, out)
  {
  }
}

=== FILE: sessions.dfy ===
/** The in-memory session store of `server/utils/sessions.js`: a map from session
    ID to record with sliding expiry, lazy eviction on lookup and a periodic
    sweep. The clock value `now` and the random bytes of a new ID are inputs. */
module Sessions {
  import opened Results
  import Hex
  import Text

  /** 24 hours in milliseconds. */
  const DEFAULT_MAX_AGE: int := 24 * 60 * 60 * 1000
  /** The sweep runs every hour. */
  const CLEANUP_INTERVAL: int := 60 * 60 * 1000
  const SESSION_ID_BYTES: nat := 32

  type SessionId = string

  /** The 32 bytes `crypto.randomBytes(32)` returned for a new ID. */
  type Entropy = e: seq<Hex.Byte> | |e| == SESSION_ID_BYTES witness seq(32, _ => 0)

  /** A stored session: the caller's data plus the two timestamps the store adds. */
  datatype Record<D> = Record(data: D, createdAt: int, lastUsedAt: int)

  /** The store's map together with the maximum idle age it was configured with. */
  datatype Store<D> = Store(sessions: map<SessionId, Record<D>>, maxAge: int)

  datatype Stats = Stats(totalSessions: nat, maxAge: int, cleanupInterval: int)

  /** `parseInt(SESSION_MAX_AGE) || 24h`: the configured value when it parses to a
      non-zero number, the default when it is unset, unparsable or zero. The same
      rule sets the session cookie's lifetime. */
  function MaxAgeSetting(setting: Option<string>): (maxAge: int)
    ensures maxAge != 0
    ensures setting.None? ==> maxAge == DEFAULT_MAX_AGE
    ensures setting.Some? && Text.ParseInt(setting.value).None? ==> maxAge == DEFAULT_MAX_AGE
    ensures setting.Some? && Text.ParseInt(setting.value).Some? ==>
      maxAge == if Text.ParseInt(setting.value).value == 0 then DEFAULT_MAX_AGE else Text.ParseInt(setting.value).value
    ensures maxAge < 0 ==> setting.Some? && Text.TrimStart(setting.value)[0] == '-'
  {
    if setting.None? then DEFAULT_MAX_AGE
    else
      match Text.ParseInt(setting.value)
      case None => DEFAULT_MAX_AGE
      case Some(n) => if n == 0 then DEFAULT_MAX_AGE else n
  }

  /** A positive number written in decimal is taken as the maximum age; zero falls
      back to the default. */
  lemma MaxAgeSettingReadsDecimal(n: nat)
    ensures MaxAgeSetting(Some(Text.Decimal(n))) == if n == 0 then DEFAULT_MAX_AGE else n
  {
    Text.ParseIntOfDecimal(n, "");
    assert Text.Decimal(n) + "" == Text.Decimal(n);
  }

  /** Nothing rejects a negative setting: `-n` becomes a negative maximum age,
      under which every record is already expired at the next lookup. */
  lemma MaxAgeSettingNegative(n: nat)
    requires n > 0
    ensures MaxAgeSetting(Some("-" + Text.Decimal(n))) == -(n as int)
  {
    Text.ParseIntOfNegativeDecimal(n);
  }

  /** The empty store the module starts with. */
  function NewStore<D>(setting: Option<string>): (st: Store<D>)
    ensures st.sessions == map[]
    ensures st.maxAge == MaxAgeSetting(setting)
  {
    Store(map[], MaxAgeSetting(setting))
  }

  /** A record is expired once it has been idle for strictly more than the maximum
      age; at exactly the maximum age it is still live. */
  predicate Expired<D>(r: Record<D>, maxAge: int, now: int) {
    now - r.lastUsedAt > maxAge
  }

  /** `generateSessionId`: the 32 random bytes as 64 lower-case hex digits. */
  function GenerateSessionId(entropy: Entropy): (id: SessionId)
    ensures |id| == 2 * SESSION_ID_BYTES && Hex.IsLowerHex(id)
    ensures id != ""
  {
    Hex.Encode(entropy)
  }

  /** Different random bytes give different IDs, so ID freshness reduces to the
      freshness of the random source. */
  lemma GenerateSessionIdInjective(e1: Entropy, e2: Entropy)
    ensures GenerateSessionId(e1) == GenerateSessionId(e2) ==> e1 == e2
  {
    Hex.EncodeInjective(e1, e2);
  }

  /** `createSession`: stores the data under a new ID with both timestamps set to
      `now` and returns the ID. Should the ID already be present (the source does
      not check) the new record replaces the old one. */
  function CreateSession<D>(st: Store<D>, data: D, entropy: Entropy, now: int): (r: (Store<D>, SessionId))
    ensures r.1 == GenerateSessionId(entropy)
    ensures r.1 in r.0.sessions && r.0.sessions[r.1] == Record(data, now, now)
    ensures r.0.sessions - {r.1} == st.sessions - {r.1}
    ensures r.0.maxAge == st.maxAge
    ensures r.1 !in st.sessions ==> |r.0.sessions| == |st.sessions| + 1
  {
    var id := GenerateSessionId(entropy);
    (st.(sessions := st.sessions[id := Record(data, now, now)]), id)
  }

  /** `getSession`: misses (store unchanged) on the empty or an unknown ID;
      evicts and misses on an expired record; otherwise refreshes only the
      record's `lastUsedAt` and returns the refreshed record. */
  function GetSession<D>(st: Store<D>, id: SessionId, now: int): (r: (Store<D>, Option<Record<D>>))
    ensures r.1.Some? <==> id != "" && id in st.sessions && !Expired(st.sessions[id], st.maxAge, now)
    ensures id == "" || id !in st.sessions ==> r.0 == st
    ensures id != "" && id in st.sessions && Expired(st.sessions[id], st.maxAge, now)
            ==> r.0 == st.(sessions := st.sessions - {id})
    ensures r.1.Some? ==>
              && r.1.value.data == st.sessions[id].data
              && r.1.value.createdAt == st.sessions[id].createdAt
              && r.1.value.lastUsedAt == now
              && id in r.0.sessions && r.0.sessions[id] == r.1.value
    ensures r.0.sessions - {id} == st.sessions - {id}
    ensures r.0.maxAge == st.maxAge
  {
    if id == "" || id !in st.sessions then (st, None)
    else
      var rec := st.sessions[id];
      if Expired(rec, st.maxAge, now) then (st.(sessions := st.sessions - {id}), None)
      else
        var touched := rec.(lastUsedAt := now);
        (st.(sessions := st.sessions[id := touched]), Some(touched))
  }

  /** `deleteSession`: reports whether the ID was present and leaves it absent;
      every other record stays as it was. */
  function DeleteSession<D>(st: Store<D>, id: SessionId): (r: (Store<D>, bool))
    ensures r.1 <==> id in st.sessions
    ensures id !in r.0.sessions
    ensures r.0.sessions.Keys == st.sessions.Keys - {id}
    ensures forall k :: k in r.0.sessions ==> r.0.sessions[k] == st.sessions[k]
    ensures r.0.maxAge == st.maxAge
  {
    (st.(sessions := st.sessions - {id}), id in st.sessions)
  }

  /** `getStats`: the number of stored records and the two configured intervals. */
  function GetStats<D>(st: Store<D>): (s: Stats)
    ensures s.totalSessions == |st.sessions.Keys|
    ensures s.maxAge == st.maxAge && s.cleanupInterval == CLEANUP_INTERVAL
  {
    Stats(|st.sessions|, st.maxAge, CLEANUP_INTERVAL)
  }

  /** The store the sweep leaves behind: exactly the records that are not expired
      at `now`, each unchanged. */
  function Sweep<D>(st: Store<D>, now: int): (r: Store<D>)
    ensures forall id :: id in r.sessions <==> id in st.sessions && !Expired(st.sessions[id], st.maxAge, now)
    ensures forall id :: id in r.sessions ==> r.sessions[id] == st.sessions[id]
    ensures r.maxAge == st.maxAge
  {
    st.(sessions := map id | id in st.sessions && !Expired(st.sessions[id], st.maxAge, now) :: st.sessions[id])
  }

  /** `cleanupExpiredSessions`: walks every entry and deletes the expired ones,
      counting them. */
  method CleanupExpiredSessions<D>(st: Store<D>, now: int) returns (swept: Store<D>, cleaned: nat)
    ensures swept == Sweep(st, now)
    ensures cleaned == |st.sessions| - |swept.sessions|
  {
    var live := st.sessions;
    var pending := st.sessions.Keys;
    cleaned := 0;
    while pending != {}
      invariant pending <= live.Keys <= st.sessions.Keys
      invariant forall id :: id in st.sessions && id !in pending ==>
                  (id in live <==> !Expired(st.sessions[id], st.maxAge, now))
      invariant forall id :: id in live ==> live[id] == st.sessions[id]
      invariant cleaned + |live| == |st.sessions|
      decreases pending
    {
      var id :| id in pending;
      if Expired(st.sessions[id], st.maxAge, now) {
        assert live.Keys == (live - {id}).Keys + {id};
        live := live - {id};
        cleaned := cleaned + 1;
      }
      pending := pending - {id};
    }
    swept := st.(sessions := live);
  }

  // ---------------------------------------------------------------------------
  // Properties relating several operations
  // ---------------------------------------------------------------------------

  /** At exactly the maximum age a record is still returned; one millisecond later
      it is evicted. */
  lemma ExpiryBoundary<D>(st: Store<D>, id: SessionId, now: int)
    requires id != "" && id in st.sessions
    ensures now - st.sessions[id].lastUsedAt == st.maxAge ==> GetSession(st, id, now).1.Some?
    ensures now - st.sessions[id].lastUsedAt == st.maxAge + 1 ==>
              GetSession(st, id, now).1.None? && id !in GetSession(st, id, now).0.sessions
  {
  }

  /** The lookups of one ID at the given times, in order, starting from `st`;
      the result is the final store and whether every lookup hit. */
  function LookupAll<D>(st: Store<D>, id: SessionId, times: seq<int>): (Store<D>, bool)
    decreases |times|
  {
    if times == [] then (st, true)
    else
      var (next, found) := GetSession(st, id, times[0]);
      var (last, all) := LookupAll(next, id, times[1..]);
      (last, found.Some? && all)
  }

  /** Consecutive lookups no further apart than the maximum age (the first measured
      from `start`). */
  predicate KeptAlive(start: int, times: seq<int>, maxAge: int) {
    && (times != [] ==> times[0] - start <= maxAge)
    && forall i :: 0 < i < |times| ==> times[i] - times[i - 1] <= maxAge
  }

  /** Sliding expiry: after a hit at `start`, every later lookup hits as long as no
      gap between lookups exceeds the maximum age, however long the whole run is. */
  lemma {:induction false} SlidingExpiry<D>(st: Store<D>, id: SessionId, start: int, times: seq<int>)
    requires id != "" && id in st.sessions && st.sessions[id].lastUsedAt == start
    requires KeptAlive(start, times, st.maxAge)
    ensures LookupAll(st, id, times).1
    decreases |times|
  {
    if times != [] {
      var next := GetSession(st, id, times[0]).0;
      assert KeptAlive(times[0], times[1..], st.maxAge) by {
        if |times| > 1 {
          assert times[1..][0] - times[0] == times[1] - times[0];
        }
        forall i | 0 < i < |times| - 1
          ensures times[1..][i] - times[1..][i - 1] <= st.maxAge
        {
          assert times[1..][i] - times[1..][i - 1] == times[i + 1] - times[i];
        }
      }
      SlidingExpiry(next, id, times[0], times[1..]);
    }
  }

  /** After a hit at `t`, one lookup at any `t'` up to `t + maxAge` hits again. */
  lemma HitThenHit<D>(st: Store<D>, id: SessionId, t: int, t': int)
    requires GetSession(st, id, t).1.Some?
    requires t' <= t + st.maxAge
    ensures GetSession(GetSession(st, id, t).0, id, t').1.Some?
  {
  }

  /** Without a lookup for longer than the maximum age, the next lookup misses and
      removes the record. */
  lemma IdleExpires<D>(st: Store<D>, id: SessionId, t: int, t': int)
    requires GetSession(st, id, t).1.Some?
    requires t' > t + st.maxAge
    ensures GetSession(GetSession(st, id, t).0, id, t').1.None?
    ensures id !in GetSession(GetSession(st, id, t).0, id, t').0.sessions
  {
  }

  /** A new record answers any lookup made within the maximum age after its
      creation with its data, its creation time and a refreshed last-use time. */
  lemma CreateThenGet<D>(st: Store<D>, data: D, entropy: Entropy, now: int, later: int)
    requires now <= later <= now + st.maxAge
    ensures var (st', id) := CreateSession(st, data, entropy, now);
            GetSession(st', id, later).1 == Some(Record(data, now, later))
  {
  }

  /** `deleteSession` is idempotent: a second call reports false and changes nothing. */
  lemma DeleteTwice<D>(st: Store<D>, id: SessionId)
    ensures var once := DeleteSession(st, id).0;
            DeleteSession(once, id) == (once, false)
  {
    var once := DeleteSession(st, id).0;
    assert once.sessions - {id} == once.sessions;
  }

  /** The sweep is unobservable to lookups: looking up any ID at the sweep's
      instant or later gives the same answer as without the sweep. */
  lemma SweepAgreesWithLazyExpiry<D>(st: Store<D>, id: SessionId, now: int, later: int)
    requires now <= later
    ensures GetSession(Sweep(st, now), id, later).1 == GetSession(st, id, later).1
  {
  }

  /** Sweeping twice at the same instant removes nothing more. */
  lemma SweepIdempotent<D>(st: Store<D>, now: int)
    ensures Sweep(Sweep(st, now), now) == Sweep(st, now)
  {
  }

  /** Memory bound: once every record has been idle past the maximum age, the sweep
      empties the store. */
  lemma SweepAllIdle<D>(st: Store<D>, now: int)
    requires forall id :: id in st.sessions ==> Expired(st.sessions[id], st.maxAge, now)
    ensures Sweep(st, now).sessions == map[]
    ensures GetStats(Sweep(st, now)).totalSessions == 0
  {
  }

  /** The count moves by one with every create of a fresh ID and every delete of a
      present one. */
  lemma StatsTrackCreateAndDelete<D>(st: Store<D>, data: D, entropy: Entropy, now: int, id: SessionId)
    ensures GenerateSessionId(entropy) !in st.sessions ==>
              GetStats(CreateSession(st, data, entropy, now).0).totalSessions == GetStats(st).totalSessions + 1
    ensures id in st.sessions ==>
              GetStats(DeleteSession(st, id).0).totalSessions + 1 == GetStats(st).totalSessions
  {
  }
}

=== FILE: text.dfy ===
/** The few JavaScript string built-ins the core relies on: `split` on one
    character, decimal rendering of a number, and the global `parseInt` with no
    radix argument. `Join` is not called by the core; it is the reference inverse
    against which `Split` is checked. */
module Text {
  import opened Results
  import Hex

  // ---------------------------------------------------------------------------
  // split / join
  // ---------------------------------------------------------------------------

  /** `s.split(sep)` for a one-character separator: the pieces between
      separators, so there is always one more piece than separators. */
  function Split(s: string, sep: char): (parts: seq<string>)
    ensures |parts| == multiset(s)[sep] + 1
    ensures forall i :: 0 <= i < |parts| ==> sep !in parts[i]
  {
    if s == [] then [""]
    else
      var rest := Split(s[1..], sep);
      assert s == [s[0]] + s[1..];
      assert multiset(s) == multiset([s[0]]) + multiset(s[1..]);
      if s[0] == sep then [""] + rest
      else [[s[0]] + rest[0]] + rest[1..]
  }

  /** `parts.join(sep)` with a one-character separator: the inverse of `Split`. */
  function Join(parts: seq<string>, sep: char): string {
    if |parts| == 0 then ""
    else if |parts| == 1 then parts[0]
    else parts[0] + [sep] + Join(parts[1..], sep)
  }

  lemma {:induction false} SplitWithoutSeparator(a: string, sep: char)
    requires sep !in a
    ensures Split(a, sep) == [a]
  {
    if a != [] {
      SplitWithoutSeparator(a[1..], sep);
      assert [a[0]] + a[1..] == a;
    }
  }

  lemma {:induction false} SplitAtFirstSeparator(a: string, sep: char, rest: string)
    requires sep !in a
    ensures Split(a + [sep] + rest, sep) == [a] + Split(rest, sep)
  {
    var s := a + [sep] + rest;
    if a == [] {
      assert s[1..] == rest;
    } else {
      assert s[1..] == a[1..] + [sep] + rest;
      SplitAtFirstSeparator(a[1..], sep, rest);
      assert [a[0]] + a[1..] == a;
    }
  }

  /** Splitting a join of separator-free pieces gives the pieces back. */
  lemma {:induction false} SplitJoin(parts: seq<string>, sep: char)
    requires |parts| >= 1
    requires forall i :: 0 <= i < |parts| ==> sep !in parts[i]
    ensures Split(Join(parts, sep), sep) == parts
  {
    if |parts| == 1 {
      SplitWithoutSeparator(parts[0], sep);
    } else {
      SplitJoin(parts[1..], sep);
      SplitAtFirstSeparator(parts[0], sep, Join(parts[1..], sep));
      assert [parts[0]] + parts[1..] == parts;
    }
  }

  /** Prepending a character to the first piece prepends it to the join. */
  lemma JoinExtendFirst(c: char, parts: seq<string>, sep: char)
    requires |parts| >= 1
    ensures Join([[c] + parts[0]] + parts[1..], sep) == [c] + Join(parts, sep)
  {
    var q := [[c] + parts[0]] + parts[1..];
    if |parts| > 1 {
      assert q[1..] == parts[1..];
    }
  }

  /** An empty first piece puts the separator at the front of the join. */
  lemma JoinEmptyFirst(parts: seq<string>, sep: char)
    requires |parts| >= 1
    ensures Join([""] + parts, sep) == [sep] + Join(parts, sep)
  {
    assert ([""] + parts)[1..] == parts;
  }

  /** Joining the pieces of a split gives the text back. */
  lemma {:induction false} JoinSplit(s: string, sep: char)
    ensures Join(Split(s, sep), sep) == s
  {
    if s != [] {
      var rest := Split(s[1..], sep);
      JoinSplit(s[1..], sep);
      assert Join(rest, sep) == s[1..];
      if s[0] == sep {
        assert Split(s, sep) == [""] + rest;
        JoinEmptyFirst(rest, sep);
      } else {
        assert Split(s, sep) == [[s[0]] + rest[0]] + rest[1..];
        JoinExtendFirst(s[0], rest, sep);
      }
      assert [s[0]] + s[1..] == s;
    }
  }

  /** The two-piece case used for `iv:ciphertext` framing. */
  lemma SplitPair(a: string, sep: char, b: string)
    requires sep !in a && sep !in b
    ensures Split(a + [sep] + b, sep) == [a, b]
  {
    SplitJoin([a, b], sep);
    assert Join([a, b], sep) == a + [sep] + Join([b], sep);
  }

  // ---------------------------------------------------------------------------
  // Decimal numbers
  // ---------------------------------------------------------------------------

  predicate IsDecimalDigit(c: char) {
    '0' <= c <= '9'
  }

  function DecimalDigit(d: nat): (c: char)
    requires d < 10
    ensures IsDecimalDigit(c) && Hex.IsHexDigit(c) && Hex.DigitValue(c) == d
  {
    ('0' as int + d) as char
  }

  /** `String(n)` for a non-negative integer: its digits with no leading zero. */
  function Decimal(n: nat): (s: string)
    ensures |s| >= 1
    ensures forall i :: 0 <= i < |s| ==> IsDecimalDigit(s[i])
    ensures s[0] == '0' ==> n == 0
  {
    if n < 10 then [DecimalDigit(n)]
    else Decimal(n / 10) + [DecimalDigit(n % 10)]
  }

  // ---------------------------------------------------------------------------
  // parseInt
  // ---------------------------------------------------------------------------

  /** The characters `parseInt` skips before a number: ECMAScript's white space
      and line terminators. */
  predicate IsJsWhitespace(c: char) {
    || c == '\t' || c == '\n' || c == '\U{B}' || c == '\U{C}' || c == '\r' || c == ' '
    || c == '\U{A0}' || c == '\U{1680}' || ('\U{2000}' <= c <= '\U{200A}')
    || c == '\U{2028}' || c == '\U{2029}' || c == '\U{202F}' || c == '\U{205F}'
    || c == '\U{3000}' || c == '\U{FEFF}'
  }

  function TrimStart(s: string): (t: string)
    ensures |t| <= |s| && t == s[|s| - |t|..]
    ensures t == [] || !IsJsWhitespace(t[0])
  {
    if s != [] && IsJsWhitespace(s[0]) then TrimStart(s[1..]) else s
  }

  predicate IsDigitIn(c: char, radix: nat) {
    if radix == 16 then Hex.IsHexDigit(c) else IsDecimalDigit(c)
  }

  /** The longest prefix made of digits of the radix. */
  function DigitPrefix(s: string, radix: nat): (d: string)
    ensures |d| <= |s| && d == s[..|d|]
    ensures forall i :: 0 <= i < |d| ==> IsDigitIn(d[i], radix)
    ensures |d| < |s| ==> !IsDigitIn(s[|d|], radix)
  {
    if s != [] && IsDigitIn(s[0], radix) then [s[0]] + DigitPrefix(s[1..], radix) else ""
  }

  /** The value of a digit string, most significant digit first. */
  function Value(d: string, radix: nat): nat
    requires forall i :: 0 <= i < |d| ==> IsDigitIn(d[i], radix)
  {
    if d == [] then 0
    else
      var last := d[|d| - 1];
      assert IsDigitIn(last, radix);
      Value(d[..|d| - 1], radix) * radix + Hex.DigitValue(last)
  }

  /** A `0x` or `0X` prefix. */
  predicate HasHexPrefix(u: string) {
    |u| >= 2 && u[0] == '0' && (u[1] == 'x' || u[1] == 'X')
  }

  /** The unsigned part of `parseInt`: a `0x`/`0X` prefix switches to base 16, and
      the number ends at the first character that is not a digit. A number needs a
      leading decimal digit; a decimal digit not followed by `x` or `X` always
      gives one. */
  function ParseUnsigned(u: string): (r: Option<nat>)
    ensures r.Some? ==> u != [] && IsDecimalDigit(u[0])
    ensures u != [] && IsDecimalDigit(u[0]) && !HasHexPrefix(u) ==> r.Some?
  {
    var hex := HasHexPrefix(u);
    var radix := if hex then 16 else 10;
    var digits := DigitPrefix(if hex then u[2..] else u, radix);
    if digits == [] then None
    else
      assert Hex.IsHexDigit(digits[0]);
      assert digits[0] == u[if hex then 2 else 0];
      Some(Value(digits, radix))
  }

  /** `parseInt(s)` with no radix; `None` stands for `NaN`. Leading white space is
      skipped and one sign is allowed before the unsigned part. */
  function ParseInt(s: string): (r: Option<int>)
    ensures TrimStart(s) == [] ==> r.None?
    ensures r.Some? && r.value < 0 ==> TrimStart(s)[0] == '-'
  {
    var t := TrimStart(s);
    var negative := t != [] && t[0] == '-';
    var u := if t != [] && (t[0] == '-' || t[0] == '+') then t[1..] else t;
    match ParseUnsigned(u)
    case None => None
    case Some(magnitude) =>
      Some(if negative then -(magnitude as int) else magnitude)
  }

  lemma {:induction false} DigitPrefixOfDigits(d: string, rest: string, radix: nat)
    requires forall i :: 0 <= i < |d| ==> IsDigitIn(d[i], radix)
    requires rest == [] || !IsDigitIn(rest[0], radix)
    ensures DigitPrefix(d + rest, radix) == d
  {
    if d != [] {
      assert (d + rest)[1..] == d[1..] + rest;
      DigitPrefixOfDigits(d[1..], rest, radix);
      assert [d[0]] + d[1..] == d;
    } else {
      assert d + rest == rest;
    }
  }

  lemma {:induction false} ValueOfDecimal(n: nat)
    ensures Value(Decimal(n), 10) == n
  {
    var s := Decimal(n);
    if n >= 10 {
      ValueOfDecimal(n / 10);
      assert s[..|s| - 1] == Decimal(n / 10);
    }
  }

  /** Text that cannot continue the rendering of `n`: nothing, or a character
      that is no decimal digit and, after a lone `0`, not an `x` or `X` either. */
  predicate EndsDecimal(n: nat, rest: string) {
    rest == [] || (!IsDecimalDigit(rest[0]) && (n != 0 || (rest[0] != 'x' && rest[0] != 'X')))
  }

  lemma NoHexPrefix(n: nat, rest: string)
    requires EndsDecimal(n, rest)
    ensures !HasHexPrefix(Decimal(n) + rest)
  {
    var s := Decimal(n) + rest;
    if |s| >= 2 && s[0] == '0' {
      assert s[0] == Decimal(n)[0];
      assert n == 0 && |Decimal(n)| == 1;
      assert s[1] == rest[0];
    }
  }

  lemma ParseUnsignedOfDecimal(n: nat, rest: string)
    requires EndsDecimal(n, rest)
    ensures ParseUnsigned(Decimal(n) + rest) == Some(n)
  {
    NoHexPrefix(n, rest);
    DigitPrefixOfDigits(Decimal(n), rest, 10);
    ValueOfDecimal(n);
  }

  /** Text that starts with a digit is parsed by the unsigned part alone. */
  lemma ParseIntUnsigned(s: string)
    requires s != [] && IsDecimalDigit(s[0])
    ensures ParseInt(s) == match ParseUnsigned(s) case None => None case Some(m) => Some(m as int)
  {
    assert !IsJsWhitespace(s[0]);
    assert TrimStart(s) == s;
  }

  /** `parseInt` reads back a rendered number, up to the first character after
      it that cannot continue it. */
  lemma ParseIntOfDecimal(n: nat, rest: string)
    requires EndsDecimal(n, rest)
    ensures ParseInt(Decimal(n) + rest) == Some(n)
  {
    var s := Decimal(n) + rest;
    assert s[0] == Decimal(n)[0];
    ParseIntUnsigned(s);
    ParseUnsignedOfDecimal(n, rest);
  }

  /** `parseInt` skips a leading white-space character. */
  lemma ParseIntSkipsWhitespace(c: char, s: string)
    requires IsJsWhitespace(c)
    ensures ParseInt([c] + s) == ParseInt(s)
  {
    assert ([c] + s)[1..] == s;
  }

  /** A `0x` or `0X` prefix switches to base 16: the hex digits after it, up to
      the first character that is not one, are read as one number. */
  lemma ParseIntHexPrefix(x: char, d: string, rest: string)
    requires x == 'x' || x == 'X'
    requires d != [] && forall i :: 0 <= i < |d| ==> Hex.IsHexDigit(d[i])
    requires rest == [] || !Hex.IsHexDigit(rest[0])
    ensures ParseInt(['0', x] + (d + rest)) == Some(Value(d, 16))
  {
    var s := ['0', x] + (d + rest);
    assert s[0] == '0' && s[1] == x && s[2..] == d + rest;
    assert forall i :: 0 <= i < |d| ==> IsDigitIn(d[i], 16);
    assert rest == [] || !IsDigitIn(rest[0], 16);
    DigitPrefixOfDigits(d, rest, 16);
    ParseUnsignedHex(s);
    ParseIntUnsigned(s);
  }

  /** The hex branch of the unsigned part. */
  lemma ParseUnsignedHex(u: string)
    requires HasHexPrefix(u)
    ensures var digits := DigitPrefix(u[2..], 16);
            ParseUnsigned(u) == if digits == [] then None else Some(Value(digits, 16))
  {
  }

  /** A `0x` or `0X` prefix with no hex digit after it is no number, although
      its `0` alone would be. */
  lemma ParseIntBareHexPrefix(x: char, rest: string)
    requires x == 'x' || x == 'X'
    requires rest == [] || !Hex.IsHexDigit(rest[0])
    ensures ParseInt(['0', x] + rest) == None
  {
    var s := ['0', x] + rest;
    assert s[0] == '0' && s[1] == x && s[2..] == rest;
    assert DigitPrefix(rest, 16) == [];
    ParseUnsignedHex(s);
    ParseIntUnsigned(s);
  }

  /** A plus sign in front of a rendered number is accepted and changes nothing. */
  lemma ParseIntOfPositiveDecimal(n: nat)
    ensures ParseInt("+" + Decimal(n)) == Some(n)
  {
    var s := "+" + Decimal(n);
    assert s[0] == '+' && !IsJsWhitespace(s[0]);
    assert TrimStart(s) == s;
    assert s[1..] == Decimal(n) + "";
    ParseUnsignedOfDecimal(n, "");
    assert ParseUnsigned(s[1..]) == Some(n);
  }

  /** A minus sign in front of a rendered number negates it. */
  lemma ParseIntOfNegativeDecimal(n: nat)
    ensures ParseInt("-" + Decimal(n)) == Some(-(n as int))
  {
    var s := "-" + Decimal(n);
    assert s[0] == '-' && !IsJsWhitespace(s[0]);
    assert TrimStart(s) == s;
    assert s[1..] == Decimal(n) + "";
    ParseUnsignedOfDecimal(n, "");
    assert ParseUnsigned(s[1..]) == Some(n);
  }
}
